=== FILE: README.md ===
# SupportHub front end: ticket and user list state, in Dafny

SupportHub is a helpdesk single-page application. Almost all of it is view
wiring; this project models its pure state logic:

- the ticket **dashboard**: `getTickets` splits a ticket list into open,
  assigned and closed lists; the `ticketCreated`, `ticketUpdated` and
  `assignedTicket` push-event reducers patch those lists; a full refresh
  (`onTicketUpdated`) recomputes them from a fetched snapshot; a tab and a
  12-item page choose what is shown (`Dashboard`, `Paging`, `Tickets`);
- the **ticket card**: the finished / in progress / open status behind the
  tag's label and colour, the guards that offer "assign" and "finalize", and
  the requests those actions send, including the `{ finished: true }` patch (`TicketCard`);
- the **user management** page: the sector filter with its "0 = all" option,
  the `SECTORS` table, the page slice and page change, the filter's page reset
  and the refetch (`UserSectorSelect`, `Sectors`, `Decimal`, `UserManagement`);
- the two **user forms**: the user card's initial role and sector, its
  password check, update payload and active-flag select (`UserCard`), and the
  settings page's profile loading, password check and payload (`UserSettings`).

Every list operation is a pure function on `seq`; JavaScript's `slice` is
modelled with its clamping and negative-index rules, page counts are
`ceil(n / 12)`, and `Number(value)` / `id.toString()` are written out for the
decimal strings the sector select produces. Each event handler and each
refresh is one atomic state transition. Results of network calls are
parameters: a fetched list is `Some(list)`, and a failed call is `None`. The
stored token is `None` for `null` and `Some(text)` otherwise, and every
`if (!token) return;` guard stops on `null` and on the empty string alike
(`Session.HasToken`).

The code, not an idealised synchronisation engine, is modelled. A creation
event is appended without checking for an existing id. An update only
replaces entries of the open list and never moves a ticket to another list.
An assignment appends to the assigned list even if the ticket is already
there. These transient states can break the partition until the refresh that
every socket handler awaits recomputes it. `UpdatedPreservesPartition`,
`CreatedIsNotDeduplicated` and `RefreshHeals` state exactly this.

## Model

| member | source | states |
|---|---|---|
| Seqs.Filter | src/pages/Dashboard.tsx:66-68 | `Array.filter`: an element is kept iff it was in the input and satisfies the predicate; never longer than the input |
| Seqs.FilterIsSubsequence | src/pages/Dashboard.tsx:66-68 | filtering keeps the input order (the result is a subsequence of the input) |
| Seqs.FilterMultiplicity | src/pages/Dashboard.tsx:66-68 | filtering keeps every copy of an element the predicate accepts and no copy of one it rejects |
| Paging.Slice | src/pages/Dashboard.tsx:96 | JavaScript `slice`: never longer than the list; with non-negative bounds it is the contiguous run between the clamped bounds; never longer than `end - start` |
| Paging.PageCount | src/pages/Dashboard.tsx:99 | `Math.ceil(n / 12)`: the least page count whose pages hold `n` items; 0 exactly for an empty list |
| Paging.PageSlice | src/pages/Dashboard.tsx:92-96 | a page holds at most 12 items, is the contiguous run starting at `(page - 1) * 12`, and is empty when that start is at or past the end |
| Paging.HandlePageChange | src/pages/Dashboard.tsx:98-102 | the page changes exactly when `1 <= page <= ceil(n / 12)`, otherwise stays; a current page of at least 1 stays at least 1 |
| Paging.AcceptedPageIsNonEmpty | src/pages/Dashboard.tsx:98-102 | every page the guard accepts shows at least one item, `min(12, n - start)` of them |
| Paging.PagesArePrefix | src/pages/Dashboard.tsx:92-96 | pages 1..k laid end to end are the list's first `12k` items |
| Paging.AllPagesCoverList | src/pages/Dashboard.tsx:331-337 | the pages behind the rendered buttons 1..ceil(n/12) together are the whole list, in order |
| Paging.ApplyPageRequests | src/pages/Dashboard.tsx:90-102 | from the initial page 1, any run of page clicks leaves the current page at least 1, and it only takes requested values |
| Dashboard.GetTickets | src/pages/Dashboard.tsx:65-75 | a ticket is in the open / assigned / closed list iff it is in the snapshot and is unfinished-unassigned / unfinished-assigned / finished |
| Dashboard.GetTicketsIsPartition | src/pages/Dashboard.tsx:65-75 | the three lists together are the snapshot as a multiset, so their lengths sum to the snapshot's |
| Dashboard.GetTicketsExactlyOne | src/pages/Dashboard.tsx:65-75 | each snapshot ticket is in exactly one of the three lists |
| Dashboard.GetTicketsKeepsOrder | src/pages/Dashboard.tsx:66-68 | each list is a subsequence of the snapshot |
| Dashboard.GetTicketsIsWellPartitioned | src/pages/Dashboard.tsx:65-75 | every list holds only tickets of its own kind |
| Dashboard.GetTicketsOfPartition | src/pages/Dashboard.tsx:65-75 | partitioning the concatenation of a well-partitioned state's lists gives that state back |
| Dashboard.TicketCreated | src/pages/Dashboard.tsx:110-114 | the ticket is appended at the end of the open list, the earlier entries kept, assigned and closed unchanged (also `handleTicketCreated`, lines 232-236) |
| Dashboard.CreatedIsNotDeduplicated | src/pages/Dashboard.tsx:110-114 | delivering the same creation twice adds two copies |
| Dashboard.CreatedPreservesPartition | src/pages/Dashboard.tsx:110-114 | from a well-partitioned state, a creation keeps it well-partitioned iff the new ticket is open |
| Dashboard.ReplaceById | src/pages/Dashboard.tsx:125-127 | same length; entries with the update's id become the update, all others are kept |
| Dashboard.ReplaceByIdKeepsIds | src/pages/Dashboard.tsx:125-127 | the ids of the list, position by position, are unchanged |
| Dashboard.ReplaceByIdIsIdempotent | src/pages/Dashboard.tsx:125-127 | applying the same update twice equals applying it once |
| Dashboard.ReplaceByIdUnknownId | src/pages/Dashboard.tsx:125-127 | an update whose id is not listed leaves the list as it was |
| Dashboard.TicketUpdated | src/pages/Dashboard.tsx:124-148 | only the open list changes: ids kept, non-matching entries kept, every entry with the update's id becomes the update; assigned and closed untouched |
| Dashboard.UpdatedPreservesPartition | src/pages/Dashboard.tsx:124-148 | from a well-partitioned state, the result is well-partitioned iff the update is still open or its id is not in the open list |
| Dashboard.AssignedTicket | src/pages/Dashboard.tsx:153-172 | open loses exactly the entries with that id, in order, and keeps every copy of every other entry; the payload is appended to assigned; closed unchanged |
| Dashboard.AssignedPreservesPartition | src/pages/Dashboard.tsx:153-172 | from a well-partitioned state, the result is well-partitioned iff the payload is unfinished and assigned |
| Dashboard.Reduce | src/pages/Dashboard.tsx:110-172 | each event applies its own reducer (creation appends to open, update replaces by id in open, assignment moves out of open into assigned); no event touches the closed list; the payload ends up listed unless it updates an unknown ticket |
| Dashboard.Refresh | src/pages/Dashboard.tsx:208-226 | a fetched snapshot yields a well-partitioned state holding exactly the snapshot's tickets; a failed fetch or missing token keeps the previous state |
| Dashboard.OnSocketEvent | src/pages/Dashboard.tsx:110-174 | a handler with a successful refetch ends in the partition of the snapshot; with a failed one, the closed list is what it was |
| Dashboard.RefreshHeals | src/pages/Dashboard.tsx:110-174 | after a handler's successful refresh the state is `getTickets(snapshot)`, whatever the previous state and event |
| Dashboard.FailedRefreshKeepsReducer | src/pages/Dashboard.tsx:218-225 | when the refresh fails, the reducer's result stays |
| Dashboard.EventPreservesPartition | src/pages/Dashboard.tsx:110-174 | for each event kind, the exact condition under which the partition survives until the next refresh |
| Dashboard.EventsOnEmptyState | src/pages/Dashboard.tsx:110-172 | on the initial empty state an update is a no-op, while a creation or an assignment inserts its payload |
| Dashboard.CurrentTickets | src/pages/Dashboard.tsx:95 | "open" shows the open list, "progress" the assigned list, "closed" the closed list, whatever the state; in a partitioned state that is exactly the state's tickets of the tab's kind |
| Dashboard.TabListsSnapshotKind | src/pages/Dashboard.tsx:65-75 | after a refresh each tab lists exactly the snapshot's tickets of its kind |
| Dashboard.PaginatedTickets | src/pages/Dashboard.tsx:92-96 | at most 12 tickets, all from the active tab's list: exactly the run of that list from `(page - 1) * 12`, clamped to its end |
| Dashboard.ChangePage | src/pages/Dashboard.tsx:98-102 | a page in `1..ceil(n / 12)` of the active list becomes current, any other request leaves the view unchanged; tickets and tab never change; a changed page is never empty |
| Dashboard.SelectTab | src/pages/Dashboard.tsx:274-292 | the chosen tab becomes active and its list is shown; tickets and current page are kept |
| Dashboard.TabSwitchCanShowEmptyPage | src/pages/Dashboard.tsx:88-96 | a page past the end of the new tab's list shows nothing after a switch |
| Dashboard.ShowsPagination | src/pages/Dashboard.tsx:323 | the controls show iff there is more than one page or the list holds exactly 12 tickets |
| Dashboard.PaginationShownForSinglePage | src/pages/Dashboard.tsx:323 | with exactly 12 tickets the controls show although there is one page |
| Dashboard.AssignMovesTicketBetweenViews | src/pages/Dashboard.tsx:153-172 | snapshot with one open ticket: page 1 of "open" shows it; after its assignment "open" is empty and "in progress" shows the payload |
| Dashboard.FarPageIsEmpty | src/pages/Dashboard.tsx:92-96 | on a 5-ticket list every page from 2 on, such as 99, is empty rather than an error |
| TicketCard.StatusOf | src/components/ticket-card.tsx:89-97 | finished iff the ticket is finished; in progress iff unfinished with an assignee; open otherwise |
| TicketCard.StatusMatchesDashboardList | src/components/ticket-card.tsx:89-97 | the status of a snapshot ticket names the dashboard list that holds it, in both directions |
| TicketCard.StatusLabel | src/components/ticket-card.tsx:108 | "Finalizado", "Em progresso", "Aberto" each exactly for the matching status |
| TicketCard.StatusTagColor | src/components/ticket-card.tsx:89-97 | gray, yellow, green each exactly for the matching status |
| TicketCard.LabelAndColourAgree | src/components/ticket-card.tsx:89-108 | two tickets share a label iff they share a colour iff they share a status |
| TicketCard.CanAssign | src/components/ticket-card.tsx:150 | the assign button is only offered to an admin and never on a ticket in progress |
| TicketCard.CanFinalize | src/components/ticket-card.tsx:162 | the finalize button is only offered on a ticket in progress |
| TicketCard.AssignOfferedOnlyUnassigned | src/components/ticket-card.tsx:150 | on an unfinished ticket assign is offered iff the viewer is admin and the tag reads "Aberto"; on a finished one, to an admin iff nobody was ever assigned |
| TicketCard.FinalizeOfferedOnlyInProgress | src/components/ticket-card.tsx:162 | finalize is offered iff the ticket is in progress and assigned to the logged-in user |
| TicketCard.ActionsAreExclusive | src/components/ticket-card.tsx:150-170 | no card offers both actions |
| TicketCard.ShowsFinishedAt | src/components/ticket-card.tsx:143-147 | the finish time is shown iff the status is finished, i.e. iff the tag reads "Finalizado" |
| TicketCard.AssignResponsible | src/components/ticket-card.tsx:49-54 | without a token (absent or empty) nothing is sent; with one, an assignment request for this card's ticket |
| TicketCard.FinalizeTicket | src/components/ticket-card.tsx:65-73 | without a token (absent or empty) nothing is sent; with one, an update of this card's ticket whose patch has the single key `finished`, set to true |
| TicketCard.ActionsShareTokenGuard | src/components/ticket-card.tsx:49-73 | assign and finalize send a request for exactly the same tokens, and for the same ticket |
| Decimal.NatToStringValue | src/components/user-sector-select.tsx:66 | the decimal digits written for a number read back as that number |
| Decimal.IntToString | src/components/user-sector-select.tsx:66 | `toString` of an integer: non-empty; decimal digits for a non-negative one; `-` and digits for a negative one |
| Decimal.JsNumber | src/components/user-sector-select.tsx:52 | a digit string reads as its decimal value; a non-digit after the first character gives `NaN`; a negative result comes from a leading `-` |
| Decimal.NumberOfToString | src/components/user-sector-select.tsx:52-66 | `Number(id.toString())` is `id` for every integer id |
| Decimal.ToStringIsZeroIff | src/components/user-sector-select.tsx:49-66 | an option value is "0" exactly for the id 0 |
| Sectors.SectorTableShape | src/pages/UserManagement.tsx:21-32 | ten sectors, each id its own position, ids and names pairwise distinct, entry 0 is "Todos" |
| Sectors.FindIndexFrom | src/components/user-card.tsx:40 | the index of the first entry with the name at or after `from`, or none iff no such entry |
| Sectors.FindByName | src/components/user-card.tsx:40 | `find` by name: the first table entry with that name; none iff no entry has it |
| Sectors.FindSectorByName | src/components/user-card.tsx:40 | in `SECTORS` each sector's name finds that very sector |
| UserSectorSelect.HandleSelectChange | src/components/user-sector-select.tsx:47-55 | "0" returns the users unchanged; any other value keeps exactly the users whose sector equals `Number(value)`, every copy of each; the result keeps the input order |
| UserSectorSelect.InSector | src/components/user-sector-select.tsx:52 | the filter predicate: for a `NaN` value it keeps nobody; otherwise it keeps a user iff its sector id equals the number |
| UserSectorSelect.OptionValue | src/components/user-sector-select.tsx:66 | the option value reads back with `Number` as the sector's id, and is "0" exactly for the id 0 |
| UserSectorSelect.SelectingSectorOption | src/components/user-sector-select.tsx:47-66 | choosing a sector's option keeps exactly that sector's users, and the id-0 option keeps everyone |
| UserSectorSelect.SelectingTableSector | src/pages/UserManagement.tsx:144-148 | for the table's sectors 1..9, a user is kept iff its sector id is that sector's |
| UserManagement.PaginatedUsers | src/pages/UserManagement.tsx:57-59 | at most 12 users, all from the filtered list: exactly its run from `(page - 1) * 12`, clamped to its end; empty past its end |
| UserManagement.ChangePage | src/pages/UserManagement.tsx:61-65 | a page in `1..ceil(n / 12)` of the filtered list becomes current, any other request leaves the state unchanged; the lists never change; a changed page is never empty |
| UserManagement.HandleUserFilter | src/pages/UserManagement.tsx:90-93 | the selection becomes the filtered list and the page returns to 1; users untouched |
| UserManagement.SelectSector | src/pages/UserManagement.tsx:144-148 | after choosing a sector: page 1; "0" shows all users, any other value exactly the users of sector `Number(value)`, as a subsequence of the full list; the first 12 of them are shown |
| UserManagement.FetchUsers | src/pages/UserManagement.tsx:67-88 | with a token and a response, both lists become the response; with a token, loading ends; with no token, absent or empty, nothing changes; the page is never reset |
| UserManagement.ShowsPagination | src/pages/UserManagement.tsx:171 | pagination is shown iff there is more than one page |
| UserManagement.PaginationRulesDiffer | src/pages/UserManagement.tsx:171 | the dashboard's `>= 12` rule and this page's `> 12` rule disagree exactly at 12 items |
| UserManagement.InitialStateIsValid | src/pages/UserManagement.tsx:51-54 | the initial state is valid (page 1, filtered list drawn from users) |
| UserManagement.TransitionsPreserveValid | src/pages/UserManagement.tsx:61-101 | page change, sector choice and refetch keep the page at least 1 and the filtered list a subsequence of the users |
| UserManagement.RefetchKeepsPage | src/pages/UserManagement.tsx:74-77 | a refetch with fewer users can leave the current page past the end, showing nothing |
| UserCard.RoleIdFor | src/components/user-card.tsx:39 | role 1 iff admin, otherwise 2 |
| UserCard.InitialSectorId | src/components/user-card.tsx:40 | 0 with no sector or no match; otherwise the id of a table entry carrying that name |
| UserCard.InitialSectorIdOfName | src/components/user-card.tsx:40 | each table sector's name gives back its id; "N/A" gives 0 |
| UserCard.InitialForm | src/components/user-card.tsx:36-44 | the form starts with the card's name, email and active flag, role 1 iff admin, a sector id that is 0 or the table id of the card's sector name, and empty password fields |
| UserCard.HandleSave | src/components/user-card.tsx:89-131 | no token, absent or empty: nothing; mismatch iff the password is non-empty and differs from its confirmation; otherwise `updateUser(id, ...)` with every form field but the confirmation |
| UserCard.EmptyPasswordSkipsCheck | src/components/user-card.tsx:94 | an empty password always leads to the update, whatever the confirmation holds |
| UserCard.MismatchBlocksUpdate | src/components/user-card.tsx:94-101 | a non-empty password differing from its confirmation aborts; fixing the confirmation lets it through |
| UserCard.SaveUntouchedForm | src/components/user-card.tsx:36-114 | saving the initial form sends the card's name, email, active flag, derived role and sector, and an empty password |
| UserCard.HandleIsActiveChange | src/components/user-card.tsx:133-136 | active iff the chosen value is "sim"; no other field changes |
| UserCard.ActiveSelectValue | src/components/user-card.tsx:234 | the select shows "sim" iff the user is active, and "nao" otherwise |
| UserCard.ActiveSelectRoundTrip | src/components/user-card.tsx:133-136 | the change handler, given the value the select shows for a flag, sets that flag |
| UserCard.CanChangeActive | src/components/user-card.tsx:233-235 | the active select is enabled iff the user is inactive, when it shows "nao" |
| UserCard.ChooseActive | src/components/user-card.tsx:233-235 | a choice on an active user changes nothing; on an inactive one the user becomes active iff "sim" is chosen; no other field changes |
| UserCard.CardNeverDeactivates | src/components/user-card.tsx:133-136 | after any run of choices the user is active iff it was active or "sim" was chosen: the card can activate but never deactivate |
| UserSettings.LoadProfile | src/pages/UserSettings.tsx:31-41 | the form copies the profile's id, name, email, admin flag, role and sector, with empty password and confirmation, so it passes the password check |
| UserSettings.HandleSave | src/pages/UserSettings.tsx:60-96 | no token, absent or empty: nothing; mismatch iff non-empty and differing; otherwise an update of the form's `id` with every field but `id` and the confirmation |
| UserSettings.AdminFlagIrrelevantToPayload | src/pages/UserSettings.tsx:77-78 | flipping the admin flag does not change the sector or role sent |
| UserSettings.PayloadIgnoresIdAndConfirmation | src/pages/UserSettings.tsx:73-81 | `id` is only the target and the confirmation only gates the call: changing them leaves the payload the same |
| UserSettings.LoadThenSave | src/pages/UserSettings.tsx:31-81 | loading a profile and saving it untouched updates that profile's id with its own name, email, role, admin flag and sector, and an empty password |
| UserSettings.MismatchBlocksUpdate | src/pages/UserSettings.tsx:65-69 | a non-empty password differing from its confirmation aborts the save |
| UserSettings.InitialForm | src/pages/UserSettings.tsx:13-22 | before the profile arrives the form is id 0, empty name, email and both passwords, role 2, not admin, sector 0, and it passes the password check |
| UserSettings.SaveBeforeProfileLoads | src/pages/UserSettings.tsx:13-22 | saving before the profile arrives sends an update of user 0 with an empty name, email and password, role 2, not admin, sector 0 |

## Left out

- The realtime connection (`src/config/socket.ts`): reconnection delays and timeouts are library configuration, and connecting is I/O.
- The notification wrapper (`src/config/SocketContext.tsx`): it only formats toast texts.
- The services and API client (`src/services/*.ts`, `src/api/apiClient.ts`): network calls. Their results enter the model as `Option` parameters.
- Authentication, the private route and the login page: local storage and asynchronous checks.
- Routing, the sidebar, the statistics page's fixed chart data, the create-user and create-ticket modals, the alert dialog and the spinner: markup and form wiring.
- Toasts, `console` output, `alert` and `toLocaleString` date formatting inside the modelled handlers: side effects with no state.
- The order of an in-flight refresh against later socket events, and React re-render timing: every handler and refresh is one atomic transition.
- Which endpoint a refresh uses (all tickets for an administrator, own tickets otherwise) and the `me` profile call: the snapshot is a parameter.
- The `loading` flags of the dashboard and of both forms, including the forms' `setLoading(true)` before the early return when no token is found: presentation only.
- The card and settings forms' generic field setters (`handleInputChange`, and the `parseInt` in the card's `handleSelectChange`): they copy one input value into one field.
- The card's delete action, and what the server does with an assign or finalize request: network calls. The requests themselves and the guards are modelled.
- Decimal.JsNumber: covers the empty string and an optional `-` followed by decimal digits, and treats every other string as `NaN`, where JavaScript's `Number` also accepts whitespace, `+`, fractions, exponents and hexadecimal. Option values are always produced by `toString` on an integer id.
- TicketCard.TicketPatch: a `Partial<Ticket>` patch is restricted to the `finished`, `notes` and `assignedTo` keys; the modelled code only ever patches `finished`.

=== FILE: dashboard.dfy ===
/** The ticket dashboard's state logic: the partition of a ticket list into
    open, assigned and closed lists, the three push-event reducers that patch
    that partition, the full refresh that recomputes it, and the tab/page view. */
module Dashboard {
  import opened Wrappers
  import opened Seqs
  import opened Paging
  import opened Tickets

  /** `TicketsState`: the three lists the dashboard renders. */
  datatype TicketsState = TicketsState(
    openTickets: seq<Ticket>,
    assignedTickets: seq<Ticket>,
    closedTickets: seq<Ticket>)

  /** The state before the first snapshot arrives. */
  const InitialState := TicketsState([], [], [])

  /** The three filter conditions of `getTickets`. */
  predicate IsOpen(t: Ticket) {
    !t.finished && t.assignedTo.None?
  }

  predicate IsAssigned(t: Ticket) {
    !t.finished && t.assignedTo.Some?
  }

  predicate IsClosed(t: Ticket) {
    t.finished
  }

  /** `getTickets`: every ticket of the snapshot goes to exactly the list its
      flags select (see `GetTicketsIsPartition`), in snapshot order. */
  function GetTickets(tickets: seq<Ticket>): (st: TicketsState)
    ensures forall t :: t in st.openTickets <==> t in tickets && IsOpen(t)
    ensures forall t :: t in st.assignedTickets <==> t in tickets && IsAssigned(t)
    ensures forall t :: t in st.closedTickets <==> t in tickets && IsClosed(t)
  {
    TicketsState(Filter(IsOpen, tickets), Filter(IsAssigned, tickets), Filter(IsClosed, tickets))
  }

  /** The three lists together hold exactly the snapshot, counting repeats. */
  lemma {:induction false} GetTicketsIsPartition(tickets: seq<Ticket>)
    ensures var st := GetTickets(tickets);
      multiset(st.openTickets) + multiset(st.assignedTickets) + multiset(st.closedTickets)
        == multiset(tickets)
    ensures var st := GetTickets(tickets);
      |st.openTickets| + |st.assignedTickets| + |st.closedTickets| == |tickets|
  {
    if |tickets| > 0 {
      GetTicketsIsPartition(tickets[1..]);
      assert tickets == [tickets[0]] + tickets[1..];
    }
    var st := GetTickets(tickets);
    assert |multiset(st.openTickets) + multiset(st.assignedTickets) + multiset(st.closedTickets)|
      == |st.openTickets| + |st.assignedTickets| + |st.closedTickets|;
  }

  /** Each ticket of the snapshot lands in exactly one list. */
  lemma GetTicketsExactlyOne(tickets: seq<Ticket>, t: Ticket)
    requires t in tickets
    ensures var st := GetTickets(tickets);
      && (t in st.openTickets <==> t !in st.assignedTickets && t !in st.closedTickets)
      && (t in st.assignedTickets <==> t !in st.openTickets && t !in st.closedTickets)
      && (t in st.closedTickets <==> t !in st.openTickets && t !in st.assignedTickets)
  {
  }

  /** Each list keeps the snapshot's order. */
  lemma GetTicketsKeepsOrder(tickets: seq<Ticket>)
    ensures IsSubsequence(GetTickets(tickets).openTickets, tickets)
    ensures IsSubsequence(GetTickets(tickets).assignedTickets, tickets)
    ensures IsSubsequence(GetTickets(tickets).closedTickets, tickets)
  {
    FilterIsSubsequence(IsOpen, tickets);
    FilterIsSubsequence(IsAssigned, tickets);
    FilterIsSubsequence(IsClosed, tickets);
  }

  /** Every list holds only tickets of its own kind: what `getTickets`
      produces, and what the reducers may or may not keep. */
  predicate WellPartitioned(st: TicketsState) {
    && (forall i :: 0 <= i < |st.openTickets| ==> IsOpen(st.openTickets[i]))
    && (forall i :: 0 <= i < |st.assignedTickets| ==> IsAssigned(st.assignedTickets[i]))
    && (forall i :: 0 <= i < |st.closedTickets| ==> IsClosed(st.closedTickets[i]))
  }

  lemma GetTicketsIsWellPartitioned(tickets: seq<Ticket>)
    ensures WellPartitioned(GetTickets(tickets))
  {
  }

  /** Partitioning an already-partitioned state's lists, laid end to end,
      gives the same state back. */
  lemma GetTicketsOfPartition(st: TicketsState)
    requires WellPartitioned(st)
    ensures GetTickets(st.openTickets + st.assignedTickets + st.closedTickets) == st
  {
    var all := st.openTickets + st.assignedTickets + st.closedTickets;
    OpenOfPartition(st);
    AssignedOfPartition(st);
    ClosedOfPartition(st);
    assert GetTickets(all) == TicketsState(Filter(IsOpen, all), Filter(IsAssigned, all), Filter(IsClosed, all));
  }

  lemma OpenOfPartition(st: TicketsState)
    requires WellPartitioned(st)
    ensures Filter(IsOpen, st.openTickets + st.assignedTickets + st.closedTickets) == st.openTickets
  {
    FilterAppendThree(IsOpen, st.openTickets, st.assignedTickets, st.closedTickets);
    FilterKeepsAll(IsOpen, st.openTickets);
    FilterDropsAll(IsOpen, st.assignedTickets);
    FilterDropsAll(IsOpen, st.closedTickets);
  }

  lemma AssignedOfPartition(st: TicketsState)
    requires WellPartitioned(st)
    ensures Filter(IsAssigned, st.openTickets + st.assignedTickets + st.closedTickets) == st.assignedTickets
  {
    FilterAppendThree(IsAssigned, st.openTickets, st.assignedTickets, st.closedTickets);
    FilterDropsAll(IsAssigned, st.openTickets);
    FilterKeepsAll(IsAssigned, st.assignedTickets);
    FilterDropsAll(IsAssigned, st.closedTickets);
  }

  lemma ClosedOfPartition(st: TicketsState)
    requires WellPartitioned(st)
    ensures Filter(IsClosed, st.openTickets + st.assignedTickets + st.closedTickets) == st.closedTickets
  {
    FilterAppendThree(IsClosed, st.openTickets, st.assignedTickets, st.closedTickets);
    FilterDropsAll(IsClosed, st.openTickets);
    FilterDropsAll(IsClosed, st.assignedTickets);
    FilterKeepsAll(IsClosed, st.closedTickets);
  }

  lemma FilterAppendThree(p: Ticket -> bool, o: seq<Ticket>, a: seq<Ticket>, c: seq<Ticket>)
    ensures Filter(p, o + a + c) == Filter(p, o) + Filter(p, a) + Filter(p, c)
  {
    FilterAppend(p, o + a, c);
    FilterAppend(p, o, a);
  }

  // ---------------------------------------------------------------------------
  // Push-event reducers

  /** The `ticketCreated` handler's state update, and `handleTicketCreated`
      (the create-ticket modal's callback): append to the open list, with no
      check whether a ticket with that id is already listed. */
  function TicketCreated(st: TicketsState, t: Ticket): (r: TicketsState)
    ensures |r.openTickets| == |st.openTickets| + 1
    ensures r.openTickets[..|st.openTickets|] == st.openTickets
    ensures r.openTickets[|st.openTickets|] == t
    ensures r.assignedTickets == st.assignedTickets && r.closedTickets == st.closedTickets
  {
    st.(openTickets := st.openTickets + [t])
  }

  /** Receiving the same creation twice lists the ticket twice more. */
  lemma CreatedIsNotDeduplicated(st: TicketsState, t: Ticket)
    ensures multiset(TicketCreated(TicketCreated(st, t), t).openTickets)[t]
      == multiset(st.openTickets)[t] + 2
  {
  }

  /** A creation keeps the partition exactly when the new ticket is open. */
  lemma CreatedPreservesPartition(st: TicketsState, t: Ticket)
    requires WellPartitioned(st)
    ensures WellPartitioned(TicketCreated(st, t)) <==> IsOpen(t)
  {
    var r := TicketCreated(st, t);
    if WellPartitioned(r) {
      assert r.openTickets[|st.openTickets|] == t;
    }
  }

  /** `openTickets.map(t => t.id === u.id ? u : t)`. */
  function ReplaceById(s: seq<Ticket>, u: Ticket): (r: seq<Ticket>)
    ensures |r| == |s|
    ensures forall i :: 0 <= i < |s| && s[i].id == u.id ==> r[i] == u
    ensures forall i :: 0 <= i < |s| && s[i].id != u.id ==> r[i] == s[i]
  {
    seq(|s|, i requires 0 <= i < |s| => if s[i].id == u.id then u else s[i])
  }

  /** Replacing by id never changes which ids are listed, or where. */
  lemma ReplaceByIdKeepsIds(s: seq<Ticket>, u: Ticket)
    ensures Ids(ReplaceById(s, u)) == Ids(s)
  {
  }

  /** Applying the same update twice is the same as applying it once. */
  lemma ReplaceByIdIsIdempotent(s: seq<Ticket>, u: Ticket)
    ensures ReplaceById(ReplaceById(s, u), u) == ReplaceById(s, u)
  {
  }

  /** An update for an id that is not listed changes nothing. */
  lemma ReplaceByIdUnknownId(s: seq<Ticket>, u: Ticket)
    requires u.id !in Ids(s)
    ensures ReplaceById(s, u) == s
  {
    assert forall i :: 0 <= i < |s| ==> Ids(s)[i] != u.id;
  }

  /** The `ticketUpdated` handler's state update: only the open list is
      touched, and tickets never move between lists. */
  function TicketUpdated(st: TicketsState, u: Ticket): (r: TicketsState)
    ensures Ids(r.openTickets) == Ids(st.openTickets)
    ensures forall i :: 0 <= i < |st.openTickets| && st.openTickets[i].id != u.id ==>
      r.openTickets[i] == st.openTickets[i]
    ensures forall i :: 0 <= i < |st.openTickets| && st.openTickets[i].id == u.id ==>
      r.openTickets[i] == u
    ensures u.id in Ids(st.openTickets) ==> u in r.openTickets
    ensures r.assignedTickets == st.assignedTickets && r.closedTickets == st.closedTickets
  {
    ReplaceByIdKeepsIds(st.openTickets, u);
    st.(openTickets := ReplaceById(st.openTickets, u))
  }

  /** An update keeps the partition exactly when the new version is still open
      or the ticket is not in the open list: finishing an open ticket leaves a
      finished ticket in the open list until the next refresh. */
  lemma UpdatedPreservesPartition(st: TicketsState, u: Ticket)
    requires WellPartitioned(st)
    ensures WellPartitioned(TicketUpdated(st, u)) <==> IsOpen(u) || u.id !in Ids(st.openTickets)
  {
    var r := TicketUpdated(st, u);
    if u.id in Ids(st.openTickets) {
      var i :| 0 <= i < |st.openTickets| && Ids(st.openTickets)[i] == u.id;
      assert r.openTickets[i] == u;
    }
  }

  /** Keeps the tickets whose id differs from `id`. */
  function NotId(id: int): Ticket -> bool {
    (t: Ticket) => t.id != id
  }

  /** The `assignedTicket` handler's state update: drop every open entry with
      that id, append the payload to the assigned list. */
  function AssignedTicket(st: TicketsState, a: Ticket): (r: TicketsState)
    ensures forall t :: t in r.openTickets <==> t in st.openTickets && t.id != a.id
    ensures forall t :: multiset(r.openTickets)[t] == if t.id == a.id then 0 else multiset(st.openTickets)[t]
    ensures a.id !in Ids(r.openTickets)
    ensures IsSubsequence(r.openTickets, st.openTickets)
    ensures |r.assignedTickets| == |st.assignedTickets| + 1
    ensures r.assignedTickets[..|st.assignedTickets|] == st.assignedTickets
    ensures r.assignedTickets[|st.assignedTickets|] == a
    ensures r.closedTickets == st.closedTickets
  {
    var open := Filter(NotId(a.id), st.openTickets);
    FilterIsSubsequence(NotId(a.id), st.openTickets);
    FilterMultiplicity(NotId(a.id), st.openTickets);
    assert forall i :: 0 <= i < |open| ==> Ids(open)[i] == open[i].id != a.id;
    TicketsState(open, st.assignedTickets + [a], st.closedTickets)
  }

  /** An assignment keeps the partition exactly when the payload is an
      assigned, unfinished ticket. */
  lemma AssignedPreservesPartition(st: TicketsState, a: Ticket)
    requires WellPartitioned(st)
    ensures WellPartitioned(AssignedTicket(st, a)) <==> IsAssigned(a)
  {
    var r := AssignedTicket(st, a);
    assert forall i :: 0 <= i < |r.openTickets| ==> r.openTickets[i] in st.openTickets;
    if WellPartitioned(r) {
      assert r.assignedTickets[|st.assignedTickets|] == a;
    }
  }

  // ---------------------------------------------------------------------------
  // Events and the refresh that follows them

  /** The three push events; each carries a full ticket. */
  datatype Event = Created(ticket: Ticket) | Updated(ticket: Ticket) | Assigned(ticket: Ticket)

  /** The reducer each socket handler applies before it refetches. No event
      touches the closed list, only an assignment touches the assigned list,
      and the payload ends up visible unless it updates an unknown ticket. */
  function Reduce(st: TicketsState, ev: Event): (r: TicketsState)
    ensures ev.Created? ==> r == TicketCreated(st, ev.ticket)
    ensures ev.Updated? ==> r == TicketUpdated(st, ev.ticket)
    ensures ev.Assigned? ==> r == AssignedTicket(st, ev.ticket)
    ensures r.closedTickets == st.closedTickets
    ensures !ev.Assigned? ==> r.assignedTickets == st.assignedTickets
    ensures ev.Updated? ==> Ids(r.openTickets) == Ids(st.openTickets)
    ensures !ev.Updated? || ev.ticket.id in Ids(st.openTickets) ==>
      ev.ticket in r.openTickets || ev.ticket in r.assignedTickets
  {
    match ev
    case Created(t) => TicketCreated(st, t)
    case Updated(t) => TicketUpdated(st, t)
    case Assigned(t) => AssignedTicket(st, t)
  }

  /** `onTicketUpdated` (and the load in `fetchUserData`): `snapshot` is the
      fetched list, or `None` when there is no token or a request failed, in
      which case the state is left as it was. */
  function Refresh(prev: TicketsState, snapshot: Option<seq<Ticket>>): (r: TicketsState)
    ensures snapshot.None? ==> r == prev
    ensures snapshot.Some? ==> WellPartitioned(r)
    ensures snapshot.Some? ==> forall t :: t in snapshot.value <==>
      t in r.openTickets || t in r.assignedTickets || t in r.closedTickets
  {
    match snapshot
    case None => prev
    case Some(tickets) =>
      GetTicketsIsWellPartitioned(tickets);
      GetTickets(tickets)
  }

  /** A socket handler: the reducer, then the awaited refresh. */
  function OnSocketEvent(st: TicketsState, ev: Event, snapshot: Option<seq<Ticket>>): (r: TicketsState)
    ensures snapshot.Some? ==> r == GetTickets(snapshot.value)
    ensures snapshot.None? ==> r.closedTickets == st.closedTickets
  {
    Refresh(Reduce(st, ev), snapshot)
  }

  /** A successful refresh forgets whatever the reducer did: the state after
      an event depends only on the snapshot, so any transient damage is healed. */
  lemma RefreshHeals(st1: TicketsState, ev1: Event, st2: TicketsState, ev2: Event, snapshot: seq<Ticket>)
    ensures OnSocketEvent(st1, ev1, Some(snapshot)) == OnSocketEvent(st2, ev2, Some(snapshot))
    ensures OnSocketEvent(st1, ev1, Some(snapshot)) == GetTickets(snapshot)
  {
  }

  /** A failed refresh leaves exactly the reducer's result. */
  lemma FailedRefreshKeepsReducer(st: TicketsState, ev: Event)
    ensures OnSocketEvent(st, ev, None) == Reduce(st, ev)
  {
  }

  /** From a partitioned state, a single event followed by a failed refresh
      stays partitioned precisely for events that agree with the list they touch. */
  lemma EventPreservesPartition(st: TicketsState, ev: Event)
    requires WellPartitioned(st)
    ensures WellPartitioned(OnSocketEvent(st, ev, None)) <==>
      match ev
      case Created(t) => IsOpen(t)
      case Updated(t) => IsOpen(t) || t.id !in Ids(st.openTickets)
      case Assigned(t) => IsAssigned(t)
  {
    match ev
    case Created(t) => CreatedPreservesPartition(st, t);
    case Updated(t) => UpdatedPreservesPartition(st, t);
    case Assigned(t) => AssignedPreservesPartition(st, t);
  }

  /** Events about unknown tickets on an empty state: an update is a no-op,
      while a creation or an assignment inserts its payload. */
  lemma EventsOnEmptyState(t: Ticket)
    ensures Reduce(InitialState, Updated(t)) == InitialState
    ensures Reduce(InitialState, Created(t)) == TicketsState([t], [], [])
    ensures Reduce(InitialState, Assigned(t)) == TicketsState([], [t], [])
  {
  }

  // ---------------------------------------------------------------------------
  // Tabs and pages

  datatype Tab = OpenTab | ProgressTab | ClosedTab

  /** The tickets a tab is meant to list. */
  predicate TabShows(tab: Tab, t: Ticket) {
    match tab
    case OpenTab => IsOpen(t)
    case ProgressTab => IsAssigned(t)
    case ClosedTab => IsClosed(t)
  }

  /** `currentTickets`: the list behind the active tab; in a partitioned state
      it holds only tickets of the tab's kind. */
  function CurrentTickets(st: TicketsState, tab: Tab): (r: seq<Ticket>)
    ensures tab == OpenTab ==> r == st.openTickets
    ensures tab == ProgressTab ==> r == st.assignedTickets
    ensures tab == ClosedTab ==> r == st.closedTickets
    ensures WellPartitioned(st) ==> forall i :: 0 <= i < |r| ==> TabShows(tab, r[i])
    ensures WellPartitioned(st) ==> forall t :: t in r <==>
      TabShows(tab, t) && (t in st.openTickets || t in st.assignedTickets || t in st.closedTickets)
    ensures r == st.openTickets || r == st.assignedTickets || r == st.closedTickets
  {
    match tab
    case OpenTab => st.openTickets
    case ProgressTab => st.assignedTickets
    case ClosedTab => st.closedTickets
  }

  /** After a refresh, each tab lists exactly the snapshot's tickets of its
      kind. */
  lemma TabListsSnapshotKind(tickets: seq<Ticket>, tab: Tab)
    ensures forall t :: t in CurrentTickets(GetTickets(tickets), tab) <==> t in tickets && TabShows(tab, t)
  {
    GetTicketsIsWellPartitioned(tickets);
  }

  /** The view state: ticket lists, the active tab and the current page. */
  datatype View = View(tickets: TicketsState, activeTab: Tab, currentPage: int)

  /** `paginatedTickets`. */
  function PaginatedTickets(v: View): (r: seq<Ticket>)
    ensures |r| <= ItemsPerPage
    ensures forall t :: t in r ==> t in CurrentTickets(v.tickets, v.activeTab)
    ensures var s := CurrentTickets(v.tickets, v.activeTab);
      v.currentPage >= 1 ==>
        r == s[Min(PageStart(v.currentPage), |s|)..Min(PageStart(v.currentPage) + ItemsPerPage, |s|)]
  {
    PageSlice(CurrentTickets(v.tickets, v.activeTab), v.currentPage)
  }

  /** `handlePageChange`, bounded by the active tab's list. */
  function ChangePage(v: View, page: int): (r: View)
    ensures r.tickets == v.tickets && r.activeTab == v.activeTab
    ensures var n := |CurrentTickets(v.tickets, v.activeTab)|;
      1 <= page <= PageCount(n) ==> r.currentPage == page
    ensures var n := |CurrentTickets(v.tickets, v.activeTab)|;
      !(1 <= page <= PageCount(n)) ==> r == v
    ensures v.currentPage >= 1 ==> r.currentPage >= 1
    ensures r.currentPage != v.currentPage ==> PaginatedTickets(r) != []
  {
    var n := |CurrentTickets(v.tickets, v.activeTab)|;
    var p := HandlePageChange(page, v.currentPage, n);
    if p == v.currentPage then v
    else
      AcceptedPageIsNonEmpty(CurrentTickets(v.tickets, v.activeTab), p);
      v.(currentPage := p)
  }

  /** `setActiveTab`: the page is not reset when switching tabs. */
  function SelectTab(v: View, tab: Tab): (r: View)
    ensures r.activeTab == tab
    ensures r.currentPage == v.currentPage && r.tickets == v.tickets
    ensures CurrentTickets(r.tickets, r.activeTab) == CurrentTickets(v.tickets, tab)
  {
    v.(activeTab := tab)
  }

  /** Because the page survives a tab switch, a page that was valid on a long
      list shows nothing on a shorter one. */
  lemma TabSwitchCanShowEmptyPage(v: View, tab: Tab)
    requires v.currentPage >= 1
    requires PageStart(v.currentPage) >= |CurrentTickets(v.tickets, tab)|
    ensures PaginatedTickets(SelectTab(v, tab)) == []
  {
  }

  /** The dashboard shows pagination for 12 tickets or more. */
  function ShowsPagination(n: nat): (r: bool)
    ensures r <==> PageCount(n) > 1 || n == ItemsPerPage
  {
    n >= ItemsPerPage
  }

  /** With exactly 12 tickets the controls appear although there is one page. */
  lemma PaginationShownForSinglePage()
    ensures ShowsPagination(12) && PageCount(12) == 1
  {
  }

  /** The scenario of a snapshot with one open ticket that then gets assigned. */
  lemma AssignMovesTicketBetweenViews(t1: Ticket, a: Ticket)
    requires IsOpen(t1) && IsAssigned(a) && a.id == t1.id
    ensures PaginatedTickets(View(GetTickets([t1]), OpenTab, 1)) == [t1]
    ensures PaginatedTickets(View(AssignedTicket(GetTickets([t1]), a), OpenTab, 1)) == []
    ensures PaginatedTickets(View(AssignedTicket(GetTickets([t1]), a), ProgressTab, 1)) == [a]
  {
    var st := GetTickets([t1]);
    assert st.openTickets == [t1] by {
      assert st.openTickets == [t1] + Filter(IsOpen, []);
    }
    assert st.assignedTickets == [] && st.closedTickets == [];
    var r := AssignedTicket(st, a);
    assert r.openTickets == [] by {
      assert Filter(NotId(a.id), [t1]) == [] + Filter(NotId(a.id), []);
    }
  }

  /** Page numbers 99 and up on a 5-ticket list show nothing and do not fail. */
  lemma FarPageIsEmpty(v: View)
    requires |CurrentTickets(v.tickets, v.activeTab)| == 5 && v.currentPage >= 2
    ensures PaginatedTickets(v) == []
  {
  }
}

=== FILE: decimal.dfy ===
/** The two conversions a sector select option goes through: `id.toString()`
    to make the option value and `Number(value)` to read it back. */
module Decimal {
  import opened Wrappers

  predicate IsDigit(c: char) {
    '0' <= c <= '9'
  }

  predicate AllDigits(s: string) {
    forall i :: 0 <= i < |s| ==> IsDigit(s[i])
  }

  function DigitChar(d: nat): (c: char)
    requires d < 10
    ensures IsDigit(c)
    ensures c as int - '0' as int == d
  {
    ('0' as int + d) as char
  }

  /** Decimal digits of a natural number, most significant first, no leading zeros. */
  function NatToString(n: nat): (s: string)
    ensures |s| > 0 && AllDigits(s)
    decreases n
  {
    if n < 10 then [DigitChar(n)] else NatToString(n / 10) + [DigitChar(n % 10)]
  }

  /** `n.toString()` for an integer. */
  function IntToString(n: int): (s: string)
    ensures |s| > 0
    ensures n >= 0 ==> AllDigits(s)
    ensures n < 0 ==> s[0] == '-' && |s| > 1 && AllDigits(s[1..])
  {
    if n < 0 then "-" + NatToString(-n) else NatToString(n)
  }

  /** The value of a string of decimal digits (leading zeros allowed). */
  function DigitsValue(s: string): nat
    requires AllDigits(s)
  {
    if |s| == 0 then 0
    else DigitsValue(s[..|s| - 1]) * 10 + (s[|s| - 1] as int - '0' as int)
  }

  /** `Number(s)` on the strings it is given here: the empty string is 0, an
      optional `-` followed by decimal digits is that integer, and anything
      else is `NaN` (`None`), which equals no number. */
  function JsNumber(s: string): (r: Option<int>)
    ensures AllDigits(s) ==> r == Some(DigitsValue(s))
    ensures (exists i :: 1 <= i < |s| && !IsDigit(s[i])) ==> r.None?
    ensures r.Some? && r.value < 0 ==> s[0] == '-'
  {
    if |s| == 0 then Some(0)
    else if s[0] == '-' && |s| > 1 && AllDigits(s[1..]) then Some(0 - DigitsValue(s[1..]) as int)
    else if AllDigits(s) then Some(DigitsValue(s))
    else None
  }

  lemma {:induction false} NatToStringValue(n: nat)
    ensures DigitsValue(NatToString(n)) == n
    decreases n
  {
    var s := NatToString(n);
    if n >= 10 {
      NatToStringValue(n / 10);
      assert s[..|s| - 1] == NatToString(n / 10);
      assert s[|s| - 1] == DigitChar(n % 10);
    } else {
      assert s[..|s| - 1] == [];
    }
  }

  lemma NumberOfDigits(d: string)
    requires |d| > 0 && AllDigits(d)
    ensures JsNumber(d) == Some(DigitsValue(d))
  {
    assert IsDigit(d[0]);
  }

  lemma NumberOfNegative(d: string)
    requires |d| > 0 && AllDigits(d)
    ensures JsNumber("-" + d) == Some(0 - DigitsValue(d) as int)
  {
    var s := "-" + d;
    assert s[0] == '-' && s[1..] == d;
  }

  /** Reading back an option value yields the id it was made from. */
  lemma NumberOfToString(n: int)
    ensures JsNumber(IntToString(n)) == Some(n)
  {
    if n < 0 {
      NatToStringValue(-n);
      NumberOfNegative(NatToString(-n));
    } else {
      NatToStringValue(n);
      NumberOfDigits(NatToString(n));
    }
  }

  /** Only the id 0 is written as "0". */
  lemma ToStringIsZeroIff(n: int)
    ensures IntToString(n) == "0" <==> n == 0
  {
    NumberOfToString(n);
    if IntToString(n) == "0" {
      assert JsNumber("0") == Some(0) by {
        assert DigitsValue("0") == DigitsValue("0"[..0]) * 10 + 0;
      }
    }
  }
}

=== FILE: paging.dfy ===
/** Fixed-size pagination shared by the ticket dashboard and the user
    management page: JavaScript `slice` semantics, `Math.ceil(n / 12)` page
    counts and the guarded page change. */
module Paging {

  /** `ITEMS_PER_PAGE` in both pages. */
  const ItemsPerPage: nat := 12

  function Min(a: int, b: int): int {
    if a <= b then a else b
  }

  /** How `slice` resolves one bound: negative values count from the end,
      and the result is clamped to `[0, len]`. */
  function ClampIndex(i: int, len: nat): (r: nat)
    ensures r <= len
    ensures 0 <= i <= len ==> r == i
    ensures i >= len ==> r == len
    ensures i >= 0 ==> r <= i
    ensures i < 0 ==> r >= len + i
  {
    if i < 0 then (if len + i < 0 then 0 else len + i)
    else if i > len then len
    else i
  }

  /** Clamping keeps two bounds of the same sign in order and never widens
      the gap between them (a negative and a non-negative bound need not stay
      in order: `slice(-1, 0)` is empty). */
  lemma ClampKeepsOrder(i: int, j: int, len: nat)
    ensures (i < 0 <==> j < 0) && i <= j ==>
      ClampIndex(i, len) <= ClampIndex(j, len) && ClampIndex(j, len) - ClampIndex(i, len) <= j - i
    ensures (i < 0 <==> j < 0) && j <= i ==> ClampIndex(j, len) <= ClampIndex(i, len)
  {
  }

  /** JavaScript's `s.slice(start, end)`: never fails, clamps both bounds. */
  function Slice<T>(s: seq<T>, start: int, end: int): (r: seq<T>)
    ensures |r| <= |s|
    ensures 0 <= start <= end ==> r == s[Min(start, |s|)..Min(end, |s|)]
    ensures (start < 0 <==> end < 0) && end <= start ==> r == []
    ensures start <= end ==> |r| <= end - start
  {
    ClampKeepsOrder(start, end, |s|);
    var from := ClampIndex(start, |s|);
    var to := ClampIndex(end, |s|);
    if from < to then s[from..to] else []
  }

  /** `Math.ceil(n / ITEMS_PER_PAGE)` for a list length `n`. */
  function PageCount(n: nat): (r: nat)
    ensures r == 0 <==> n == 0
    ensures n <= ItemsPerPage * r
    ensures r > 0 ==> ItemsPerPage * (r - 1) < n
  {
    (n + ItemsPerPage - 1) / ItemsPerPage
  }

  /** `startIndex` for a page number. */
  function PageStart(page: int): int {
    (page - 1) * ItemsPerPage
  }

  /** `list.slice(startIndex, endIndex)` with `endIndex = startIndex + 12`. */
  function PageSlice<T>(s: seq<T>, page: int): (r: seq<T>)
    ensures |r| <= ItemsPerPage
    ensures page >= 1 ==> r == s[Min(PageStart(page), |s|)..Min(PageStart(page) + ItemsPerPage, |s|)]
    ensures page >= 1 && PageStart(page) >= |s| ==> r == []
    ensures page >= 1 && PageStart(page) < |s| ==> |r| > 0 && r[0] == s[PageStart(page)]
  {
    Slice(s, PageStart(page), PageStart(page) + ItemsPerPage)
  }

  /** `handlePageChange(page)`: the new current page for a list of `n` items. */
  function HandlePageChange(page: int, current: int, n: nat): (r: int)
    ensures r == page || r == current
    ensures 1 <= page <= PageCount(n) ==> r == page
    ensures !(1 <= page <= PageCount(n)) ==> r == current
    ensures current >= 1 ==> r >= 1
    ensures r != current ==> 1 <= r <= PageCount(n)
  {
    if page > 0 && page <= PageCount(n) then page else current
  }

  /** Every page the guard accepts has at least one item on it. */
  lemma AcceptedPageIsNonEmpty<T>(s: seq<T>, page: int)
    requires 1 <= page <= PageCount(|s|)
    ensures PageSlice(s, page) != []
    ensures |PageSlice(s, page)| == Min(ItemsPerPage, |s| - PageStart(page))
  {
    assert PageStart(page) <= PageStart(PageCount(|s|));
  }

  /** Pages `1..k` laid end to end. */
  function Pages<T>(s: seq<T>, k: nat): seq<T> {
    if k == 0 then [] else Pages(s, k - 1) + PageSlice(s, k)
  }

  lemma {:induction false} PagesArePrefix<T>(s: seq<T>, k: nat)
    ensures Pages(s, k) == s[..Min(ItemsPerPage * k, |s|)]
  {
    if k > 0 {
      PagesArePrefix(s, k - 1);
      var a := Min(ItemsPerPage * (k - 1), |s|);
      var b := Min(ItemsPerPage * k, |s|);
      assert PageSlice(s, k) == s[a..b];
      assert s[..a] + s[a..b] == s[..b];
    }
  }

  /** The page buttons `1..ceil(n/12)` together show the whole list, in order. */
  lemma AllPagesCoverList<T>(s: seq<T>)
    ensures Pages(s, PageCount(|s|)) == s
  {
    PagesArePrefix(s, PageCount(|s|));
    assert s[..|s|] == s;
  }

  /** One click on a page control, made while the list held `listLength` items. */
  datatype PageRequest = PageRequest(page: int, listLength: nat)

  /** The current page after a run of clicks starting from `useState(1)`:
      it never drops below 1, and it only ever takes a value that was requested. */
  method ApplyPageRequests(requests: seq<PageRequest>) returns (current: int)
    ensures current >= 1
    ensures current == 1 || exists i :: 0 <= i < |requests| && requests[i].page == current
  {
    current := 1;
    var k := 0;
    while k < |requests|
      invariant 0 <= k <= |requests|
      invariant current >= 1
      invariant current == 1 || exists i :: 0 <= i < k && requests[i].page == current
    {
      current := HandlePageChange(requests[k].page, current, requests[k].listLength);
      k := k + 1;
    }
  }
}

=== FILE: sectors.dfy ===
/** The fixed sector table (`SECTORS`) and lookup of a sector by name. */
module Sectors {
  import opened Wrappers

  datatype Sector = Sector(id: int, name: string)

  /** `SECTORS`; entry 0 ("Todos") stands for all sectors in the filter. */
  const SECTORS: seq<Sector> := [
    Sector(0, "Todos"),
    Sector(1, "SEMAD-DAL"),
    Sector(2, "SEMAD-DTI"),
    Sector(3, "SEMAD-DGP"),
    Sector(4, "SEMAD-DSO"),
    Sector(5, "SEMAD-EGPA"),
    Sector(6, "SEMAD-GAB"),
    Sector(7, "SEMAD-NUCOM"),
    Sector(8, "SEMAD-NUJUR"),
    Sector(9, "SEMAD-SA")
  ]

  /** Each sector's id is its position in the table, so ids are distinct,
      names are distinct, and id 0 is the "Todos" entry. */
  lemma SectorTableShape()
    ensures |SECTORS| == 10
    ensures forall i :: 0 <= i < |SECTORS| ==> SECTORS[i].id == i
    ensures forall i, j :: 0 <= i < j < |SECTORS| ==> SECTORS[i].id != SECTORS[j].id
    ensures forall i, j :: 0 <= i < j < |SECTORS| ==> SECTORS[i].name != SECTORS[j].name
    ensures SECTORS[0] == Sector(0, "Todos")
  {
  }

  /** `table.findIndex(s => s.name === name)` starting at `from`. */
  function FindIndexFrom(table: seq<Sector>, name: string, from: nat): (r: Option<nat>)
    requires from <= |table|
    ensures r.Some? ==> from <= r.value < |table| && table[r.value].name == name
    ensures r.Some? ==> forall j :: from <= j < r.value ==> table[j].name != name
    ensures r.None? ==> forall j :: from <= j < |table| ==> table[j].name != name
    decreases |table| - from
  {
    if from == |table| then None
    else if table[from].name == name then Some(from)
    else FindIndexFrom(table, name, from + 1)
  }

  /** `table.find(s => s.name === name)`: the first sector with that name. */
  function FindByName(table: seq<Sector>, name: string): (r: Option<Sector>)
    ensures r.Some? ==> r.value in table && r.value.name == name
    ensures r.None? <==> forall j :: 0 <= j < |table| ==> table[j].name != name
    ensures r.Some? ==> exists i ::
      0 <= i < |table| && table[i] == r.value && (forall j :: 0 <= j < i ==> table[j].name != name)
  {
    match FindIndexFrom(table, name, 0)
    case None => None
    case Some(i) => Some(table[i])
  }

  /** In `SECTORS` a name finds exactly its own entry. */
  lemma FindSectorByName(i: nat)
    requires i < |SECTORS|
    ensures FindByName(SECTORS, SECTORS[i].name) == Some(SECTORS[i])
  {
    SectorTableShape();
    var r := FindIndexFrom(SECTORS, SECTORS[i].name, 0);
    assert r.Some?;
  }
}

=== FILE: seqs.dfy ===
/** Sequence helpers shared by the ticket and user lists: JavaScript's
    `Array.prototype.filter` and an order-preserving subsequence relation. */
module Seqs {

  /** `s.filter(p)`: the elements of `s` satisfying `p`, in their original order. */
  function Filter<T(!new)>(p: T -> bool, s: seq<T>): (r: seq<T>)
    ensures |r| <= |s|
    ensures forall x :: x in r <==> x in s && p(x)
    ensures forall i :: 0 <= i < |r| ==> p(r[i])
  {
    if |s| == 0 then []
    else if p(s[0]) then [s[0]] + Filter(p, s[1..])
    else Filter(p, s[1..])
  }

  /** Filtering keeps every copy of a kept element and no copy of a dropped
      one: it is the sub-multiset of the elements satisfying `p`. */
  lemma {:induction false} FilterMultiplicity<T(!new)>(p: T -> bool, s: seq<T>)
    ensures forall x :: multiset(Filter(p, s))[x] == if p(x) then multiset(s)[x] else 0
  {
    if |s| > 0 {
      FilterMultiplicity(p, s[1..]);
      assert s == [s[0]] + s[1..];
    }
  }

  /** `a` can be obtained from `b` by deleting elements (order is kept). */
  predicate IsSubsequence<T(==)>(a: seq<T>, b: seq<T>)
    decreases |b|
  {
    |a| == 0 ||
    (|b| > 0 &&
     ((a[0] == b[0] && IsSubsequence(a[1..], b[1..])) || IsSubsequence(a, b[1..])))
  }

  /** Filtering never reorders: the result is a subsequence of the input. */
  lemma {:induction false} FilterIsSubsequence<T(!new)>(p: T -> bool, s: seq<T>)
    ensures IsSubsequence(Filter(p, s), s)
  {
    if |s| > 0 {
      FilterIsSubsequence(p, s[1..]);
      if p(s[0]) {
        assert Filter(p, s)[1..] == Filter(p, s[1..]);
      }
    }
  }

  /** Filtering with a predicate every element satisfies is the identity. */
  lemma {:induction false} FilterKeepsAll<T(!new)>(p: T -> bool, s: seq<T>)
    requires forall i :: 0 <= i < |s| ==> p(s[i])
    ensures Filter(p, s) == s
  {
    if |s| > 0 {
      FilterKeepsAll(p, s[1..]);
      assert [s[0]] + s[1..] == s;
    }
  }

  /** Filtering distributes over concatenation. */
  lemma {:induction false} FilterAppend<T(!new)>(p: T -> bool, s: seq<T>, t: seq<T>)
    ensures Filter(p, s + t) == Filter(p, s) + Filter(p, t)
  {
    if |s| == 0 {
      assert s + t == t;
    } else {
      assert (s + t)[1..] == s[1..] + t;
      FilterAppend(p, s[1..], t);
    }
  }

  /** Filtering with a predicate no element satisfies leaves nothing. */
  lemma {:induction false} FilterDropsAll<T(!new)>(p: T -> bool, s: seq<T>)
    requires forall i :: 0 <= i < |s| ==> !p(s[i])
    ensures Filter(p, s) == []
  {
    if |s| > 0 {
      FilterDropsAll(p, s[1..]);
    }
  }
}

=== FILE: session.dfy ===
/** The login token, as `localStorage.getItem("token")` returns it: `None`
    for `null`, otherwise the stored string. */
module Session {
  import opened Wrappers

  /** A truthy token. Both `null` and the empty string are falsy, so every
      `if (!token) return;` guard stops on either. */
  predicate HasToken(token: Option<string>) {
    token.Some? && token.value != ""
  }
}

=== FILE: ticket_card.dfy ===
/** The ticket card: its status tag (label and colour), the conditions under
    which the assign and finalize actions are offered, and the finalize patch. */
module TicketCard {
  import opened Wrappers
  import opened Tickets
  import opened Session
  import Dashboard

  /** The three-way decision behind the tag: finished dominates assignment. */
  datatype Status = Open | InProgress | Finished

  function StatusOf(t: Ticket): (s: Status)
    ensures s == Finished <==> t.finished
    ensures s == InProgress <==> !t.finished && t.assignedTo.Some?
  {
    if t.finished then Finished
    else if t.assignedTo.Some? then InProgress
    else Open
  }

  /** The status decision picks out the dashboard list that holds the ticket
      after a partition. */
  lemma StatusMatchesDashboardList(tickets: seq<Ticket>, t: Ticket)
    requires t in tickets
    ensures var st := Dashboard.GetTickets(tickets);
      && (StatusOf(t) == Open <==> t in st.openTickets)
      && (StatusOf(t) == InProgress <==> t in st.assignedTickets)
      && (StatusOf(t) == Finished <==> t in st.closedTickets)
  {
  }

  /** The tag's text, written as the card's nested conditional. */
  function StatusLabel(t: Ticket): (r: string)
    ensures r == "Finalizado" <==> StatusOf(t) == Finished
    ensures r == "Em progresso" <==> StatusOf(t) == InProgress
    ensures r == "Aberto" <==> StatusOf(t) == Open
  {
    if t.finished then "Finalizado" else if t.assignedTo.Some? then "Em progresso" else "Aberto"
  }

  /** `getStatusTagColor`. */
  function StatusTagColor(t: Ticket): (r: string)
    ensures r == "bg-gray-500" <==> StatusOf(t) == Finished
    ensures r == "bg-yellow-500" <==> StatusOf(t) == InProgress
    ensures r == "bg-green-500" <==> StatusOf(t) == Open
  {
    match StatusOf(t)
    case Finished => "bg-gray-500"
    case InProgress => "bg-yellow-500"
    case Open => "bg-green-500"
  }

  /** Label and colour always tell the same story: either one determines the other. */
  lemma LabelAndColourAgree(t1: Ticket, t2: Ticket)
    ensures StatusLabel(t1) == StatusLabel(t2) <==> StatusTagColor(t1) == StatusTagColor(t2)
    ensures StatusLabel(t1) == StatusLabel(t2) <==> StatusOf(t1) == StatusOf(t2)
  {
  }

  /** "Atribuir Responsável" is offered to admins for unassigned tickets. */
  function CanAssign(isAdmin: bool, t: Ticket): (r: bool)
    ensures r ==> isAdmin && StatusOf(t) != InProgress
  {
    isAdmin && t.assignedTo.None?
  }

  /** "Finalizar Ticket" is offered to the assignee of an unfinished ticket. */
  function CanFinalize(loggedInUserId: int, t: Ticket): (r: bool)
    ensures r ==> StatusOf(t) == InProgress
  {
    t.assignedTo.Some? && t.assignedTo.value.id == loggedInUserId && !t.finished
  }

  /** On an unfinished ticket the assign action is offered to an admin exactly
      when the tag reads "Aberto"; it is also offered for a finished ticket that
      was never assigned. */
  lemma AssignOfferedOnlyUnassigned(isAdmin: bool, t: Ticket)
    ensures !t.finished ==> (CanAssign(isAdmin, t) <==> isAdmin && StatusOf(t) == Open)
    ensures isAdmin && StatusOf(t) == Finished ==> (CanAssign(isAdmin, t) <==> t.assignedTo.None?)
  {
  }

  /** Finalize is offered only on tickets in progress, only to their assignee. */
  lemma FinalizeOfferedOnlyInProgress(userId: int, t: Ticket)
    ensures CanFinalize(userId, t) <==> StatusOf(t) == InProgress && t.assignedTo.value.id == userId
  {
  }

  /** No card ever offers both actions at once. */
  lemma ActionsAreExclusive(isAdmin: bool, userId: int, t: Ticket)
    ensures !(CanAssign(isAdmin, t) && CanFinalize(userId, t))
  {
  }

  /** "Finalizado em" (the `updatedAt` time) is shown for finished tickets only. */
  function ShowsFinishedAt(t: Ticket): (r: bool)
    ensures r <==> StatusOf(t) == Finished
    ensures r <==> StatusLabel(t) == "Finalizado"
  {
    t.finished
  }

  /** A `Partial<Ticket>` restricted to the fields a client may patch. */
  datatype TicketPatch = TicketPatch(finished: Option<bool>, notes: Option<string>, assignedTo: Option<Assignee>)

  /** The names of the patchable fields. */
  datatype PatchField = FinishedField | NotesField | AssignedToField

  /** The fields a patch carries, i.e. the keys of the JSON object sent. */
  function PatchFields(p: TicketPatch): set<PatchField> {
    (if p.finished.Some? then {FinishedField} else {}) +
    (if p.notes.Some? then {NotesField} else {}) +
    (if p.assignedTo.Some? then {AssignedToField} else {})
  }

  /** The two calls a card can make. */
  datatype Request = AssignRequest(ticketId: int) | UpdateRequest(ticketId: int, patch: TicketPatch)

  /** `assignResponsible`: without a token (absent or empty) nothing is sent; otherwise
      `assignTicket(id, token)`. */
  function AssignResponsible(id: int, token: Option<string>): (r: Option<Request>)
    ensures r.None? <==> !HasToken(token)
    ensures r.Some? ==> r.value.AssignRequest? && r.value.ticketId == id
  {
    if !HasToken(token) then None else Some(AssignRequest(id))
  }

  /** `finalizeTicket`: without a token (absent or empty) nothing is sent; otherwise
      `updateTicket(id, { finished: true })`, a patch whose only key is
      `finished`. */
  function FinalizeTicket(id: int, token: Option<string>): (r: Option<Request>)
    ensures r.None? <==> !HasToken(token)
    ensures r.Some? ==> r.value.UpdateRequest? && r.value.ticketId == id
    ensures r.Some? ==> PatchFields(r.value.patch) == {FinishedField} && r.value.patch.finished == Some(true)
  {
    if !HasToken(token) then None
    else
      var p := TicketPatch(Some(true), None, None);
      assert PatchFields(p) == {FinishedField};
      Some(UpdateRequest(id, p))
  }

  /** Both actions are guarded by the same token check, and on the same card
      they address the same ticket. */
  lemma ActionsShareTokenGuard(id: int, token: Option<string>)
    ensures AssignResponsible(id, token).Some? <==> FinalizeTicket(id, token).Some?
    ensures AssignResponsible(id, token).Some? ==>
      AssignResponsible(id, token).value.ticketId == FinalizeTicket(id, token).value.ticketId
  {
  }
}

=== FILE: tickets.dfy ===
/** The ticket record as the dashboard receives it, from the REST snapshot
    or as the payload of a push event. Timestamps and texts are opaque. */
module Tickets {
  import opened Wrappers

  /** The `assignedTo` object: the responsible user. */
  datatype Assignee = Assignee(id: int, fullName: string)

  datatype Ticket = Ticket(
    id: int,
    requester: string,
    problemDescription: string,
    finished: bool,
    notes: Option<string>,
    createdAt: string,
    updatedAt: string,
    userId: int,
    sectorId: int,
    assignedTo: Option<Assignee>,
    sectorName: Option<string>)

  /** The ids of a ticket list, position by position. */
  function Ids(s: seq<Ticket>): (r: seq<int>)
    ensures |r| == |s|
    ensures forall i :: 0 <= i < |s| ==> r[i] == s[i].id
  {
    seq(|s|, i requires 0 <= i < |s| => s[i].id)
  }
}

=== FILE: user_card.dfy ===
/** The user card's edit form: its initial values, the active-flag select and
    the save action with its password check and update payload. */
module UserCard {
  import opened Wrappers
  import opened Sectors
  import opened Users
  import opened Session

  /** The props the management page passes to a card. */
  datatype Props = Props(
    id: int,
    fullName: string,
    email: string,
    isActive: bool,
    isAdmin: bool,
    sectorName: Option<string>)

  /** The edit form's state. */
  datatype Form = Form(
    fullName: string,
    email: string,
    roleId: int,
    sectorId: int,
    isActive: bool,
    password: string,
    confirmPassword: string)

  /** The body of `updateUser`: the form without `confirmPassword`. */
  datatype Payload = Payload(
    fullName: string,
    email: string,
    roleId: int,
    sectorId: int,
    isActive: bool,
    password: string)

  /** Role 1 is the administrator role, role 2 the standard user. */
  function RoleIdFor(isAdmin: bool): (r: int)
    ensures r == 1 <==> isAdmin
    ensures r == 1 || r == 2
  {
    if isAdmin then 1 else 2
  }

  /** `Sector ? SECTORS.find(s => s.name === Sector.name)?.id || 0 : 0`. */
  function InitialSectorId(sectorName: Option<string>): (r: int)
    ensures sectorName.None? ==> r == 0
    ensures sectorName.Some? && FindByName(SECTORS, sectorName.value).None? ==> r == 0
    ensures r != 0 ==> sectorName.Some? && Sector(r, sectorName.value) in SECTORS
  {
    match sectorName
    case None => 0
    case Some(name) =>
      match FindByName(SECTORS, name)
      case None => 0
      case Some(s) => if s.id != 0 then s.id else 0
  }

  /** A table sector's name gives back its id; a name outside the table, such
      as the "N/A" shown for users without a sector, gives 0. */
  lemma InitialSectorIdOfName(i: nat)
    requires i < |SECTORS|
    ensures InitialSectorId(Some(SECTORS[i].name)) == i
    ensures InitialSectorId(Some("N/A")) == 0
  {
    FindSectorByName(i);
    SectorTableShape();
  }

  /** `useState({...})` in the card. */
  function InitialForm(p: Props): (f: Form)
    ensures f.fullName == p.fullName && f.email == p.email && f.isActive == p.isActive
    ensures f.roleId == 1 <==> p.isAdmin
    ensures f.sectorId != 0 ==> p.sectorName.Some? && Sector(f.sectorId, p.sectorName.value) in SECTORS
    ensures f.password == "" && f.confirmPassword == ""
  {
    Form(p.fullName, p.email, RoleIdFor(p.isAdmin), InitialSectorId(p.sectorName), p.isActive, "", "")
  }

  /** `handleSave`. */
  function HandleSave(id: int, f: Form, token: Option<string>): (r: SaveOutcome<Payload>)
    ensures r.NoToken? <==> !HasToken(token)
    ensures r.PasswordMismatch? <==> HasToken(token) && !PasswordConfirmed(f.password, f.confirmPassword)
    ensures r.Update? ==> r.id == id
    ensures r.Update? ==> r.payload.sectorId == f.sectorId && r.payload.roleId == f.roleId
    ensures r.Update? ==> r.payload.password == f.password && r.payload.isActive == f.isActive
    ensures r.Update? ==> r.payload.fullName == f.fullName && r.payload.email == f.email
  {
    if !HasToken(token) then NoToken
    else if !PasswordConfirmed(f.password, f.confirmPassword) then PasswordMismatch
    else Update(id, Payload(f.fullName, f.email, f.roleId, f.sectorId, f.isActive, f.password))
  }

  /** An empty password goes through whatever the confirmation holds, and the
      confirmation never reaches the payload. */
  lemma EmptyPasswordSkipsCheck(id: int, f: Form, token: string, confirm: string)
    requires token != ""
    requires f.password == ""
    ensures HandleSave(id, f, Some(token)) == HandleSave(id, f.(confirmPassword := confirm), Some(token))
    ensures HandleSave(id, f, Some(token)).Update?
  {
  }

  /** A mismatch never calls `updateUser`; a match sends the same payload
      whatever the confirmation field held beyond matching. */
  lemma MismatchBlocksUpdate(id: int, f: Form, token: string)
    requires token != ""
    requires f.password != "" && f.password != f.confirmPassword
    ensures HandleSave(id, f, Some(token)) == PasswordMismatch
    ensures HandleSave(id, f.(confirmPassword := f.password), Some(token)).Update?
  {
  }

  /** Saving an untouched form sends the card's own data back, with the role
      derived from the admin flag and the sector looked up by name. */
  lemma SaveUntouchedForm(p: Props, token: string)
    requires token != ""
    ensures HandleSave(p.id, InitialForm(p), Some(token)) ==
      Update(p.id, Payload(p.fullName, p.email, RoleIdFor(p.isAdmin), InitialSectorId(p.sectorName), p.isActive, ""))
  {
  }

  /** The active select shows `isActive ? "sim" : "nao"`. */
  function ActiveSelectValue(isActive: bool): (r: string)
    ensures r == "sim" <==> isActive
    ensures r == "sim" || r == "nao"
  {
    if isActive then "sim" else "nao"
  }

  /** `handleIsActiveChange`: only "sim" means active; nothing else changes. */
  function HandleIsActiveChange(f: Form, value: string): (r: Form)
    ensures r.isActive <==> value == "sim"
    ensures r.(isActive := f.isActive) == f
  {
    f.(isActive := value == "sim")
  }

  /** Choosing the option the select shows for a flag sets that flag. */
  lemma ActiveSelectRoundTrip(f: Form, isActive: bool)
    ensures HandleIsActiveChange(f, ActiveSelectValue(isActive)).isActive == isActive
  {
  }

  /** The select is `disabled` while the form says active: only an inactive
      user can have the flag changed from the card. */
  function CanChangeActive(isActive: bool): (r: bool)
    ensures r <==> !isActive
    ensures r ==> ActiveSelectValue(isActive) == "nao"
  {
    !isActive
  }

  /** A choice in the active select: a disabled select ignores it, an enabled
      one runs `handleIsActiveChange`. */
  function ChooseActive(f: Form, value: string): (r: Form)
    ensures f.isActive ==> r == f
    ensures !f.isActive ==> (r.isActive <==> value == "sim")
    ensures r.(isActive := f.isActive) == f
  {
    if CanChangeActive(f.isActive) then HandleIsActiveChange(f, value) else f
  }

  /** Any run of choices in the active select. */
  function ChooseActiveAll(f: Form, values: seq<string>): (r: Form)
    decreases |values|
  {
    if |values| == 0 then f else ChooseActiveAll(ChooseActive(f, values[0]), values[1..])
  }

  /** The card can activate a user but never deactivate one: after any run of
      choices the user is active iff it was active or "sim" was chosen, and
      no other field changes. */
  lemma {:induction false} CardNeverDeactivates(f: Form, values: seq<string>)
    ensures ChooseActiveAll(f, values).isActive <==> f.isActive || "sim" in values
    ensures ChooseActiveAll(f, values).(isActive := f.isActive) == f
    decreases |values|
  {
    if |values| > 0 {
      CardNeverDeactivates(ChooseActive(f, values[0]), values[1..]);
      assert values == [values[0]] + values[1..];
    }
  }
}

=== FILE: user_management.dfy ===
/** The user management page's state: the fetched users, the filtered list
    shown, the loading flag and the current page. */
module UserManagement {
  import opened Wrappers
  import opened Seqs
  import opened Paging
  import opened Users
  import opened Session
  import opened Decimal
  import UserSectorSelect
  import Dashboard

  datatype State = State(users: seq<User>, filteredUsers: seq<User>, loading: bool, currentPage: int)

  const InitialState := State([], [], true, 1)

  /** `paginatedUsers`. */
  function PaginatedUsers(st: State): (r: seq<User>)
    ensures |r| <= ItemsPerPage
    ensures st.currentPage >= 1 && PageStart(st.currentPage) >= |st.filteredUsers| ==> r == []
    ensures forall u :: u in r ==> u in st.filteredUsers
    ensures var s := st.filteredUsers;
      st.currentPage >= 1 ==>
        r == s[Min(PageStart(st.currentPage), |s|)..Min(PageStart(st.currentPage) + ItemsPerPage, |s|)]
  {
    PageSlice(st.filteredUsers, st.currentPage)
  }

  /** `handlePageChange`, bounded by the filtered list. */
  function ChangePage(st: State, page: int): (r: State)
    ensures r.users == st.users && r.filteredUsers == st.filteredUsers && r.loading == st.loading
    ensures 1 <= page <= PageCount(|st.filteredUsers|) ==> r.currentPage == page
    ensures !(1 <= page <= PageCount(|st.filteredUsers|)) ==> r == st
    ensures st.currentPage >= 1 ==> r.currentPage >= 1
    ensures r.currentPage != st.currentPage ==> PaginatedUsers(r) != []
  {
    var p := HandlePageChange(page, st.currentPage, |st.filteredUsers|);
    if p == st.currentPage then st
    else
      AcceptedPageIsNonEmpty(st.filteredUsers, p);
      st.(currentPage := p)
  }

  /** `handleUserFilter`: show the selection and go back to the first page. */
  function HandleUserFilter(st: State, selected: seq<User>): (r: State)
    ensures r.filteredUsers == selected && r.currentPage == 1
    ensures r.users == st.users && r.loading == st.loading
  {
    st.(filteredUsers := selected, currentPage := 1)
  }

  /** Picking a sector in the select: the filter always starts from `users`. */
  function SelectSector(st: State, value: string): (r: State)
    ensures r.currentPage == 1 && r.users == st.users
    ensures value == "0" ==> r.filteredUsers == st.users
    ensures value != "0" ==> forall u :: u in r.filteredUsers <==>
      u in st.users && JsNumber(value) == Some(u.sectorId)
    ensures IsSubsequence(r.filteredUsers, st.users)
    ensures PaginatedUsers(r) == r.filteredUsers[..Min(ItemsPerPage, |r.filteredUsers|)]
  {
    HandleUserFilter(st, UserSectorSelect.HandleSelectChange(st.users, value))
  }

  /** `fetchUsers` (and `onUserCreated`, which updates state the same way):
      `response` is the fetched list, or `None` when the request failed. With
      no token (absent or empty) the function returns before touching any
      state. */
  function FetchUsers(st: State, token: Option<string>, response: Option<seq<User>>): (r: State)
    ensures !HasToken(token) ==> r == st
    ensures HasToken(token) ==> !r.loading
    ensures HasToken(token) && response.Some? ==> r.users == response.value && r.filteredUsers == response.value
    ensures response.None? ==> r.users == st.users && r.filteredUsers == st.filteredUsers
    ensures r.currentPage == st.currentPage
  {
    if !HasToken(token) then st
    else
      match response
      case Some(all) => st.(users := all, filteredUsers := all, loading := false)
      case None => st.(loading := false)
  }

  /** The list is paginated only when it has more than 12 users. */
  function ShowsPagination(n: nat): (r: bool)
    ensures r <==> PageCount(n) > 1
  {
    n > ItemsPerPage
  }

  /** The dashboard's rule differs from this page's at exactly 12 items. */
  lemma PaginationRulesDiffer(n: nat)
    ensures Dashboard.ShowsPagination(n) != ShowsPagination(n) <==> n == 12
  {
  }

  /** What every reachable state satisfies: the page is at least 1 and the
      shown list is drawn, in order, from the fetched list. */
  predicate Valid(st: State) {
    st.currentPage >= 1 && IsSubsequence(st.filteredUsers, st.users)
  }

  lemma InitialStateIsValid()
    ensures Valid(InitialState)
  {
  }

  /** Each of the page's transitions keeps the state valid. */
  lemma TransitionsPreserveValid(st: State, page: int, value: string,
                                 token: Option<string>, response: Option<seq<User>>)
    requires Valid(st)
    ensures Valid(ChangePage(st, page))
    ensures Valid(SelectSector(st, value))
    ensures Valid(FetchUsers(st, token, response))
  {
    if HasToken(token) && response.Some? {
      UserSectorSelect.SubsequenceOfItself(response.value);
    }
  }

  /** A refetch does not reset the page: if the new list is shorter, the page
      can point past its end and show nothing. */
  lemma RefetchKeepsPage(st: State, token: string, all: seq<User>)
    requires token != ""
    requires st.currentPage >= 1 && PageStart(st.currentPage) >= |all|
    ensures PaginatedUsers(FetchUsers(st, Some(token), Some(all))) == []
  {
  }
}

=== FILE: user_sector_select.dfy ===
/** The sector filter of the user management page. */
module UserSectorSelect {
  import opened Wrappers
  import opened Seqs
  import opened Decimal
  import opened Sectors
  import opened Users

  /** Keeps the users whose `sectorId === Number(value)`. */
  function InSector(value: string): (r: User -> bool)
    ensures JsNumber(value).None? ==> forall u :: !r(u)
    ensures JsNumber(value).Some? ==> forall u :: r(u) <==> u.sectorId == JsNumber(value).value
  {
    (u: User) => JsNumber(value) == Some(u.sectorId)
  }

  /** `handleSelectChange(value)`: "0" selects everyone, any other value keeps
      the users of that sector, in their original order. */
  function HandleSelectChange(users: seq<User>, value: string): (r: seq<User>)
    ensures value == "0" ==> r == users
    ensures value != "0" ==> forall u :: u in r <==> u in users && JsNumber(value) == Some(u.sectorId)
    ensures value != "0" ==> forall u ::
      multiset(r)[u] == (if JsNumber(value) == Some(u.sectorId) then multiset(users)[u] else 0)
    ensures IsSubsequence(r, users)
  {
    if value == "0" then
      SubsequenceOfItself(users);
      users
    else
      FilterIsSubsequence(InSector(value), users);
      FilterMultiplicity(InSector(value), users);
      Filter(InSector(value), users)
  }

  lemma {:induction false} SubsequenceOfItself<T>(s: seq<T>)
    ensures IsSubsequence(s, s)
  {
    if |s| > 0 {
      SubsequenceOfItself(s[1..]);
    }
  }

  /** The value of a sector's option: `sector.id.toString()`. */
  function OptionValue(s: Sector): (r: string)
    ensures JsNumber(r) == Some(s.id)
    ensures r == "0" <==> s.id == 0
  {
    NumberOfToString(s.id);
    ToStringIsZeroIff(s.id);
    IntToString(s.id)
  }

  /** Choosing a sector's option keeps exactly that sector's users; choosing
      "Todos" keeps everyone. */
  lemma SelectingSectorOption(users: seq<User>, s: Sector)
    ensures s.id == 0 ==> HandleSelectChange(users, OptionValue(s)) == users
    ensures s.id != 0 ==> forall u :: u in HandleSelectChange(users, OptionValue(s)) <==>
      u in users && u.sectorId == s.id
  {
    ToStringIsZeroIff(s.id);
    NumberOfToString(s.id);
  }

  /** For the table's own options, with ids 1 to 9, no user of another sector
      is kept and no user of that sector is lost. */
  lemma SelectingTableSector(users: seq<User>, i: nat)
    requires 1 <= i < |SECTORS|
    ensures forall u :: u in HandleSelectChange(users, OptionValue(SECTORS[i])) <==>
      u in users && u.sectorId == i
  {
    SectorTableShape();
    SelectingSectorOption(users, SECTORS[i]);
  }
}

=== FILE: user_settings.dfy ===
/** The account settings page: the form loaded from the logged-in user's
    profile and the save action with its password check and payload. */
module UserSettings {
  import opened Wrappers
  import opened Users
  import opened Session

  datatype Form = Form(
    id: int,
    fullName: string,
    password: string,
    confirmPassword: string,
    email: string,
    roleId: int,
    isAdmin: bool,
    sectorId: int)

  /** The body of `updateUser`: the form without `id` and `confirmPassword`. */
  datatype Payload = Payload(
    fullName: string,
    password: string,
    email: string,
    roleId: int,
    isAdmin: bool,
    sectorId: int)

  /** The form before the profile arrives. */
  function InitialForm(): (f: Form)
    ensures f.id == 0 && f.fullName == "" && f.email == ""
    ensures !f.isAdmin && f.roleId == 2 && f.sectorId == 0
    ensures f.password == "" && f.confirmPassword == ""
    ensures PasswordConfirmed(f.password, f.confirmPassword)
  {
    Form(0, "", "", "", "", 2, false, 0)
  }

  /** `setUser` with the profile returned by `me`. */
  function LoadProfile(u: User): (f: Form)
    ensures f.id == u.id && f.fullName == u.fullName && f.email == u.email
    ensures f.isAdmin == u.isAdmin && f.roleId == u.roleId && f.sectorId == u.sectorId
    ensures f.password == "" && f.confirmPassword == ""
    ensures PasswordConfirmed(f.password, f.confirmPassword)
  {
    Form(u.id, u.fullName, "", "", u.email, u.roleId, u.isAdmin, u.sectorId)
  }

  /** `handleSave`, including its `isAdmin ? x : x` choices for the sector
      and the role, which pick the same value on both sides. */
  function HandleSave(f: Form, token: Option<string>): (r: SaveOutcome<Payload>)
    ensures r.NoToken? <==> !HasToken(token)
    ensures r.PasswordMismatch? <==> HasToken(token) && !PasswordConfirmed(f.password, f.confirmPassword)
    ensures r.Update? ==> r.id == f.id
    ensures r.Update? ==> r.payload.sectorId == f.sectorId && r.payload.roleId == f.roleId
    ensures r.Update? ==> r.payload.isAdmin == f.isAdmin && r.payload.password == f.password
    ensures r.Update? ==> r.payload.fullName == f.fullName && r.payload.email == f.email
  {
    if !HasToken(token) then NoToken
    else if !PasswordConfirmed(f.password, f.confirmPassword) then PasswordMismatch
    else
      Update(f.id, Payload(
        f.fullName, f.password, f.email,
        if f.isAdmin then f.roleId else f.roleId,
        f.isAdmin,
        if f.isAdmin then f.sectorId else f.sectorId))
  }

  /** The admin flag does not influence the sector and role that are sent. */
  lemma AdminFlagIrrelevantToPayload(f: Form, token: string)
    requires token != ""
    requires PasswordConfirmed(f.password, f.confirmPassword)
    ensures HandleSave(f, Some(token)).payload.sectorId == HandleSave(f.(isAdmin := !f.isAdmin), Some(token)).payload.sectorId
    ensures HandleSave(f, Some(token)).payload.roleId == HandleSave(f.(isAdmin := !f.isAdmin), Some(token)).payload.roleId
  {
  }

  /** The `id` only chooses the target and the confirmation only gates the
      call: neither reaches the payload. */
  lemma PayloadIgnoresIdAndConfirmation(f: Form, token: string, otherId: int)
    requires token != ""
    requires PasswordConfirmed(f.password, f.confirmPassword)
    ensures var g := f.(id := otherId, confirmPassword := f.password);
      HandleSave(g, Some(token)) == Update(otherId, HandleSave(f, Some(token)).payload)
  {
  }

  /** Loading a profile and saving it untouched sends the profile's own data
      to its own id, with an empty password. */
  lemma LoadThenSave(u: User, token: string)
    requires token != ""
    ensures HandleSave(LoadProfile(u), Some(token)) ==
      Update(u.id, Payload(u.fullName, "", u.email, u.roleId, u.isAdmin, u.sectorId))
  {
  }

  /** A non-empty password that differs from its confirmation aborts the save. */
  lemma MismatchBlocksUpdate(f: Form, token: string)
    requires token != ""
    requires f.password != "" && f.password != f.confirmPassword
    ensures HandleSave(f, Some(token)) == PasswordMismatch
  {
  }

  /** Saving before the profile has arrived (or after it failed to load)
      updates user 0 with an empty name and email. */
  lemma SaveBeforeProfileLoads(token: string)
    requires token != ""
    ensures HandleSave(InitialForm(), Some(token)) == Update(0, Payload("", "", "", 2, false, 0))
  {
  }
}

=== FILE: users.dfy ===
/** The user record shown on the management page, and the password rule and
    save outcome shared by the two user forms. */
module Users {
  import opened Wrappers

  datatype User = User(
    id: int,
    fullName: string,
    email: string,
    createdAt: string,
    updatedAt: string,
    roleId: int,
    isActive: bool,
    isAdmin: bool,
    sectorId: int,
    sectorName: Option<string>)

  /** `!(password && password !== confirmPassword)`: an empty password (falsy)
      needs no confirmation; a non-empty one must equal its confirmation. */
  predicate PasswordConfirmed(password: string, confirmPassword: string) {
    !(password != "" && password != confirmPassword)
  }

  /** What pressing "Salvar" leads to: nothing when there is no token, a
      mismatch message, or an `updateUser(id, payload)` call. */
  datatype SaveOutcome<P> = NoToken | PasswordMismatch | Update(id: int, payload: P)
}

=== FILE: wrappers.dfy ===
/** Optional values: JavaScript's `undefined`/absent fields and failed
    asynchronous calls are both modelled as `None`. */
module Wrappers {

  datatype Option<+T> = None | Some(value: T)
}
